=== FILE: README.md ===
# rustmadehero platform layer: audio ring scheduling, input selection and grid rendering in Dafny

This project models the parts of the `rustmadehero` Win32 platform layer that
carry logic of their own:

- the per-frame audio step of the main loop, which decides where to lock the
  DirectSound ring buffer, how many bytes to write, how the running sample
  index advances, and when looped playback starts;
- the circular distance between the program's lock offset and the hardware
  write cursor, which drives the underflow margin;
- the sizing of the PCM buffer (`SoundParams`) and of the `WAVEFORMATEX`
  descriptor built from the same numbers;
- the copy of the rendered samples into the one or two spans that `Lock`
  returns;
- the per-frame input selection: the XInput gamepad when its packet number
  moved, otherwise the W/S/A/D keys;
- the grid test pattern written into the pixel buffer (`render_gfx`), with the
  ARGB packing used as its pixel builder.

Rust's fixed-width integers are subset types of `int` (`MachineInts`). Each
assignment back to one of them is range-checked, which is the overflow panic
of a debug build. So a precondition that rules out overflow is one the source
itself places on its callers. Two non-panicking conversions are written out:
the `u128 as u32` truncation of the frame time (`TruncateU32`) and `<<`
dropping high bits (`Pixel.Shl`). The `as i32` casts in `circular_distance`
are kept value-preserving by a precondition (see "## Left out"). Rust's
truncating `%` is `RemT`.

Device outputs are parameters, not behaviour:

- the write cursor from `GetCurrentPosition`;
- the span sizes from `Lock`;
- the gamepad state from `XInputGetState`;
- the key states from `GetKeyState`;
- the elapsed milliseconds from the frame timer.

The values of the samples rendered for a frame also enter as a parameter (sample
`i` of the frame); their number is the one the source fixes, `bytes_to_write / 2`.

The step reads the sound parameters only through three sizes: the ring's
bytes, the bytes of one frame, and the bytes per millisecond. It is stated
over any such `Layout` whose ring holds at least one frame, and `LayoutOf`
computes the layout from `SoundParams` as the source does on every frame.

Files: `machine_ints.dfy`, `sound_format.dfy`, `ring.dfy`, `scheduler.dfy`,
`span_copy.dfy`, `input.dfy`, `pixel.dfy` and `grid.dfy`, one module each.

Facts about the code that the model relies on:

- The lock offset is `sound_sample_idx * bytes_per_sample` with no reduction
  modulo the buffer size. `LockOffset` proves that it is already inside the ring.
- The configured ring holds 2 seconds (384000 bytes).
- Antisymmetry of the circular distance holds at every position once the ring
  has at least 100 bytes.

## Model

| member | source | states |
|---|---|---|
| MachineInts.RemT | src/rmh.rs:16 | Rust's `%` by a positive divisor is the remainder that differs from the dividend by a multiple of the divisor, lies strictly between minus and plus the divisor and takes the sign of the dividend |
| MachineInts.RemTZeroIffDivisible | src/rmh.rs:16 | Rust's truncating remainder by 100 is zero exactly when the Euclidean one is, so the grid test does not depend on which `%` is meant |
| MachineInts.TruncateU32 | src/win32.rs:527 | `frame_timer_diff as u32` keeps the value when it fits and otherwise differs from it by a multiple of 2^32 |
| SoundFormat.BufSizeBytes | src/win32.rs:108-113 | the ring's size is the bits of `buf_size_seconds` seconds of audio rounded down to whole bytes, below 2^29 whenever the u32 products do not overflow |
| SoundFormat.BytesPerSample | src/win32.rs:115-117 | one frame's size is its bits (`bits_per_sample * n_channels`) rounded down to whole bytes |
| SoundFormat.NewPcm | src/win32.rs:46-57 | the descriptor is PCM with the given channels, rate and width, block alignment is the whole bytes of one frame, and the byte rate is frames per second times block alignment |
| SoundFormat.FormatAgreesWithSizing | src/win32.rs:107-118 | `nBlockAlign` equals `bytes_per_sample()`, and when a frame is a whole number of bytes `buf_size_bytes()` is the descriptor's byte rate times `buf_size_seconds` |
| SoundFormat.SubByteFrameDisagrees | src/win32.rs:108-117 | with a 4-bit mono frame the ring size (4 bytes) and the descriptor's byte rate times seconds (0) disagree, so the whole-byte condition is needed |
| SoundFormat.ConfiguredSizes | src/win32.rs:443-448 | the configured 16-bit stereo 48000 Hz two-second format has 4 bytes per sample, a 384000-byte ring and 192000 bytes per second |
| Ring.CircularDistance | src/win32.rs:73-87 | the distance is the raw difference or that difference corrected by one turn of the ring; it is shortened only when `a` is in the last quarter and `b` in the first, and lengthened only in the mirrored case |
| Ring.CircularDistanceSelf | src/win32.rs:73-87 | on a ring of at least 100 bytes every position is at distance 0 from itself |
| Ring.CircularDistanceSelfNeedsRing100 | src/win32.rs:75-79 | below 100 bytes both quarter marks are 0 and position 0 is a whole negative turn from itself, so the 100-byte bound is needed |
| Ring.CircularDistanceAntisymmetric | src/win32.rs:78-86 | swapping the two positions negates the distance |
| Ring.CircularDistanceWrapsIffStraddling | src/win32.rs:78-84 | the backward wrap correction is applied iff `a` is in the last quarter and `b` in the first, and the forward one iff the reverse holds |
| Ring.CircularDistanceOnRing | src/win32.rs:73-87 | for positions on the ring the distance is strictly less than one turn either way, and it is the plain difference when `a` is at or ahead of `b` before the last quarter |
| AudioScheduler.LayoutOf | src/win32.rs:524-526 | the sizes the step reads are `buf_size_bytes()` and `bytes_per_sample()`, the ring holds at least one frame and stays below 2^29 bytes, and the per-ms rate is the ring's bytes per millisecond rounded down |
| AudioScheduler.Capacity | src/win32.rs:571 | the capacity `buf_size_bytes / bytes_per_sample` of a ring holding at least one frame is positive and at most the ring's byte count, so the `%=` never divides by zero |
| AudioScheduler.Margin | src/win32.rs:538 | the underflow margin is one percent of the ring, rounded down |
| AudioScheduler.InRingIffBelowCapacity | src/win32.rs:571 | an index is below `buf_size_bytes / bytes_per_sample` iff the whole frame it names lies inside the ring |
| AudioScheduler.LockOffset | src/win32.rs:524 | for an index below capacity the lock offset is the start of that frame (a multiple of the frame size that divides back to the index) with the whole frame before the end of the ring |
| AudioScheduler.TrackerDistance | src/win32.rs:529 | the distance from the write cursor to the lock offset is less than one turn either way on a ring of at least 100 bytes, and 0 when the lock offset sits on the cursor |
| AudioScheduler.BaseBytes | src/win32.rs:525-527 | the elapsed-time share is a whole number of milliseconds at the per-ms rate: it divides back to the elapsed milliseconds, and it is 0 when the rate rounds down to 0 |
| AudioScheduler.BaseBytesShare | src/win32.rs:525-527 | for a parameter set the share of `ms` milliseconds is at most the ring's exact byte rate times `ms`, and, once at least one millisecond has elapsed, short of it by less than one byte per millisecond |
| AudioScheduler.BytesToWrite | src/win32.rs:525-547 | the byte count never exceeds the ring; it is the elapsed-time share plus the 1% margin, clamped to the ring, when the tracker is within the margin of the write cursor, and the clamped share alone otherwise |
| AudioScheduler.NextIndex | src/win32.rs:570-571 | after a frame of at most one ring's bytes the index, advanced by the whole frames written and reduced modulo capacity, is below capacity without overflowing u32 |
| AudioScheduler.Step | src/win32.rs:518-590 | one frame locks at `LockOffset` of the running index (the start of that frame, inside the ring) and writes `BytesToWrite` bytes (at most a ring's worth), hands the renderer `bytes/2` samples covering all but an odd last byte, advances the index by the frames written modulo capacity so it stays below capacity, issues `Play` iff playback was stopped, and leaves it playing |
| AudioScheduler.Run | src/win32.rs:492-591 | consecutive frames, each fitting in u32 from the state the frame before left, produce one plan each and every intermediate state keeps the index inside the ring |
| AudioScheduler.InputsFitRunFits | src/win32.rs:525-547 | frame inputs whose share plus margin fits in u32 never panic, whatever state the earlier frames leave |
| AudioScheduler.RunChained | src/win32.rs:570-571 | over consecutive frames each plan's index is the previous index advanced by that plan's whole frames, modulo capacity |
| AudioScheduler.ChainedIndex | src/win32.rs:570-571 | along any such chain the final index is the starting index plus all frames written, modulo capacity, and below capacity |
| AudioScheduler.RunIndexIsTotalModCapacity | src/win32.rs:570-571 | after any number of frames the running index is the total number of sample frames written, modulo capacity, and below capacity |
| AudioScheduler.RunPlaysAtMostOnce | src/win32.rs:586-590 | over any run `Play` is issued exactly once if playback started stopped and a frame ran, never otherwise, and `sound_playing` never reverts |
| AudioScheduler.BytesToWriteMonotone | src/win32.rs:525-527 | for frames shorter than 2^32 ms a longer frame never writes fewer bytes, all else equal |
| AudioScheduler.BytesToWriteWrapsAtU32 | src/win32.rs:525-527 | past 2^32 ms the `as u32` truncation breaks monotonicity: with the configured format a 2^32 + 5 ms frame writes 4800 bytes against 6912 for a 16 ms one, neither overflowing |
| AudioScheduler.ConfiguredLayoutOf | src/win32.rs:443-448 | the configured parameters are valid and give a 384000-byte ring of 4-byte frames at 192 bytes per ms |
| AudioScheduler.ConfiguredWritesWholeFrames | src/win32.rs:525-571 | with the configured format every byte count is a multiple of the 4-byte frame, so the index advance accounts for every byte written |
| AudioScheduler.ConfiguredFirstFrame | src/win32.rs:518-590 | first 16 ms frame, write cursor at 0: lock offset 0, base 192 x 16 = 3072 bytes, margin added since the tracker sits on the cursor (6912 bytes, 3456 samples), next index 1728, `Play` issued |
| SpanCopy.CopySpans | src/win32.rs:573-581 | the first span receives samples `0..count1`, the second the next `count2`, one source index runs across both, the spans' remaining slots are untouched, and `count1 + count2` samples are transferred |
| SpanCopy.SpanSlotsWithinSamples | src/win32.rs:551-581 | spans whose sizes sum to at most `bytes_to_write` have at most `bytes_to_write / 2` i16 slots, so every read of the rendered samples is in bounds |
| SpanCopy.AsWrittenAgreesForStereo | src/win32.rs:574-578 | for two channels the source's `part_size / n_channels` slot count equals the i16 slot count |
| SpanCopy.MonoLayoutOf | src/win32.rs:107-118 | a mono 16-bit 48000 Hz two-second format is valid and gives a 192000-byte ring of 2-byte frames at 96 bytes per ms |
| SpanCopy.SpanSlots | src/win32.rs:574-578 | a span of `part_size` bytes has the whole 2-byte i16 slots that fit in it |
| SpanCopy.SpanSlotsAsWritten | src/win32.rs:574-578 | the source's loop count for a span is its byte size divided by the channel count, rounded down |
| SpanCopy.AsWrittenMonoOverread | src/win32.rs:574-578 | for a mono format the first 16 ms frame asks for 3456 bytes as one span of 1728 slots with 1728 samples rendered, and the source's loop count is 3456, so it reads past the rendered samples once the span is full |
| SpanCopy.AsWrittenMonoOverrun | src/win32.rs:574-578 | for a mono format, at index 95950 with the cursor on the lock offset 100 bytes before the ring's end, a 16 ms frame's 3456 bytes split into a 100-byte first span of 50 slots, and the source's first loop writes 100 i16 values into it while reading only rendered samples |
| SpanCopy.AudioFrame | src/win32.rs:518-590 | a whole audio frame follows the step's plan, keeps the ring invariant, plays iff playback was stopped, renders `bytes/2` samples in order, and fills both locked spans completely with the leading samples in order |
| Input.DecodeDpad | src/win32.rs:255-258 | each direction is its D-pad bit, so the pad's mask is exactly the D-pad bits of `wButtons` |
| Input.DpadRoundTrip | src/win32.rs:255-258 | decoding the D-pad mask of a pad gives that pad back |
| Input.DpadIgnoresOtherButtons | src/win32.rs:255-258 | only the four D-pad bits influence the pad, and re-encoding the decoded pad yields exactly those bits |
| Input.GetPadInput | src/win32.rs:248-264 | reports input iff XInput is present and the packet number changed; otherwise pad and packet are unchanged; on a change the stored packet is the new one and the pad's mask equals the D-pad bits of `wButtons` |
| Input.GetPadInputIdempotent | src/win32.rs:253-260 | polling again with the same gamepad state reports no input and changes nothing |
| Input.KeyDown | src/win32.rs:267-269 | a key is down iff bit 15 of its state is set, that is iff the state is at least 0x8000 |
| Input.KeyDownIffNegative | src/win32.rs:267-269 | bit 15 of the `GetKeyState` value is set iff the SHORT is negative |
| Input.GetKbdInput | src/win32.rs:271-277 | up, down, left and right are W, S, A and D being held, each read from the sign bit of its key state |
| Input.SelectInput | src/win32.rs:498-500 | a changed gamepad state supplies the pad and the new packet number; otherwise the keyboard replaces all four directions and the packet number stays |
| Input.NoGamepadMeansKeyboard | src/win32.rs:249-263 | without XInput the keyboard decides every frame and the packet number never moves |
| Pixel.Shl | src/win32.rs:70 | `x << k` leaves the low `k` bits zero and puts the low `32 - k` bits of `x` above them, dropping the rest |
| Pixel.Argb | src/win32.rs:64-71 | on byte components the pixel is the number whose base-256 digits are alpha, red, green and blue |
| Pixel.ArgbUnpacks | src/win32.rs:64-71 | byte components never overflow the sum, and alpha, red, green and blue read back from bits 31-24, 23-16, 15-8 and 7-0 |
| Pixel.ArgbInjective | src/win32.rs:64-71 | on byte components distinct colours pack to distinct pixels |
| Pixel.ArgbNotInjectiveBeyondBytes | src/win32.rs:64-71 | a component of 256 spills into its neighbour, so injectivity needs byte components |
| Pixel.GridColours | src/win32.rs:64-71 | the grid colour packs to 0xFF00FF00 and the background to 0xFF000000 |
| Grid.RenderGfx | src/rmh.rs:5-23 | every pixel `(x, y)` of the image, at index `y*w + x` inside the buffer, gets green on a grid line and black elsewhere; entries past `w*h` are unchanged; the result is the reference frame |
| Grid.IdxDecompose | src/rmh.rs:15 | index `y*w + x` with `0 <= x < w` gives back column `x` and row `y` |
| Grid.IdxInjective | src/rmh.rs:13-15 | distinct pixels in a row have distinct indices, so each is written exactly once |
| Grid.IdxCovers | src/rmh.rs:13-15 | every index below `w*h` is the index of one pixel of the image |
| Grid.IdxInArea | src/rmh.rs:13-17 | every pixel's index is below `w*h`, so it is inside a buffer of at least `w*h` entries |
| Grid.FrameShiftX | src/rmh.rs:16 | shifting `x_offset` by 100 leaves the frame unchanged |
| Grid.FrameShiftY | src/rmh.rs:16 | shifting `y_offset` by 100 leaves the frame unchanged |
| Grid.ArgbFrameColours | src/rmh.rs:16-19 | with `win32_u32_argb` as builder, image pixels are 0xFF00FF00 exactly on grid lines and 0xFF000000 elsewhere |

## Left out

- `rmh::update_state` and `rmh::render_audio` are not part of this model. Their bodies are not in the source text. The rendered samples are a parameter of length `bytes_to_write / 2`.
- The waveform generator and the input reducer are not modelled, for the same reason.
- Window plumbing is OS call sequencing: `window_event_handler`, `win32_get_game`, `win32_render`, `win32_resize_bitmap_buffer`, `win32_refresh_rate`, `PWSTRCreator`, and the window set-up in `main`.
- Device loading is DLL and COM calls: `win32_load_xinput`, and `win32_init_dsound` with its zero-fill of the new buffer. XInput enters as present or absent. The sound buffer's sizes come from `SoundFormat`.
- DirectSound `GetCurrentPosition`, `Lock`, `Unlock` and `Play` are device calls. Their outputs are parameters. How `Lock` splits a range that runs past the end of the ring is not modelled. The model assumes it returns no more bytes than requested.
- The play cursor is read by the source but never used, so it is not an input.
- Frame timing reads the wall clock (`Instant`). The elapsed milliseconds are an input. Their `as u32` truncation is modelled.
- Logging (`debug!`) and the `debug_assert!` checks on HRESULTs are diagnostics only.
- `src/main.rs` is an earlier window-only revision with no logic. `bindings/build.rs` only lists imports.
- Ring.CircularDistance: requires `a + n` and `b + n` to fit in an i32, so the source's `as i32` casts keep their values. The reinterpretation of larger `u32` values is not modelled. The scheduler only passes offsets below a ring of under 2^29 bytes.
- AudioScheduler.BytesToWriteMonotone: holds only for frames shorter than 2^32 ms; the `as u32` truncation of the frame time makes a longer frame count as a shorter one (`BytesToWriteWrapsAtU32`).
- AudioScheduler.BytesToWrite: requires the u32 byte count not to overflow before the clamp. The source panics there in a debug build once a frame lasts about 22 million ms with the configured format. The clamp does not guard against this.
- AudioScheduler.StepFits: assumes the write cursor `GetCurrentPosition` reports lies inside the ring. The source never checks this; it is the device's contract.
- The audio block is skipped when there is no sound buffer (`src/win32.rs:518`): the index does not move and `Play` is never issued. `Step`, `Run` and `RunPlaysAtMostOnce` model frames on which the buffer exists.
- Grid.RenderGfx: `build_pixel` is any partial function that accepts the two colours it is called with. The model does not track other effects of the callback.

## Findings

| source | as written | input that shows it | evidently intended | confidence | as-written member | corrected member |
|---|---|---|---|---|---|---|
| src/win32.rs:574-578 | the copy loops run `part1size / n_channels` and `part2size / n_channels` times, writing one i16 per iteration | mono 16-bit 48000 Hz two-second format, first 16 ms frame, write cursor 0: 3456 bytes to write, 1728 rendered samples; with one 3456-byte span the loop fills the span's 1728 slots and then panics reading sample 1728; with the range split into a 100-byte and a 3356-byte span (index 95950, cursor on the lock offset) the first loop writes 100 i16 values into 50 slots before any read goes out of range | a span of `part_size` bytes holds `part_size / size_of::<i16>()` samples | medium; not executed; the configured stereo format is unaffected | SpanCopy.SpanSlotsAsWritten, SpanCopy.AsWrittenMonoOverread, SpanCopy.AsWrittenMonoOverrun | SpanCopy.SpanSlots, SpanCopy.SpanSlotsWithinSamples, SpanCopy.AudioFrame |

=== FILE: grid.dfy ===
/**
 The test pattern renderer (`render_gfx`): a row-major fill of the flat pixel
 buffer with a grid of lines every 100 pixels, shifted by the game's x and
 y offsets. Grid pixels get `build_pixel(255, 0, 255, 0)`, all others
 `build_pixel(255, 0, 0, 0)`.
 */
module Grid {
  import opened MachineInts
  import opened Pixel

  /** The pixel-builder callback; it must accept the two colours the renderer asks for. */
  type PixelBuilder = (u32, u32, u32, u32) --> u32

  ghost predicate CanBuild(build: PixelBuilder) {
    build.requires(255, 0, 255, 0) && build.requires(255, 0, 0, 0)
  }

  /** Pixel `(x, y)` lies on a grid line, with Rust's truncating `%`. */
  predicate OnGrid(x: int, y: int, xOffset: int, yOffset: int) {
    RemT(x - xOffset, 100) == 0 || RemT(y - yOffset, 100) == 0
  }

  function PixelAt(x: int, y: int, xOffset: int, yOffset: int, build: PixelBuilder): u32
    requires CanBuild(build)
  {
    if OnGrid(x, y, xOffset, yOffset) then build(255, 0, 255, 0) else build(255, 0, 0, 0)
  }

  /** Buffer index of pixel `(x, y)` in a row-major image `w` pixels wide. */
  function Idx(w: int, x: int, y: int): int {
    y * w + x
  }

  /** Number of pixels the loops visit: none when either dimension is not positive. */
  function Area(w: i32, h: i32): nat {
    if w > 0 && h > 0 then w * h else 0
  }

  /** Reference definition of the rendered buffer, index by index. */
  function Frame(mem: seq<u32>, w: i32, h: i32, xOffset: i32, yOffset: i32, build: PixelBuilder): (f: seq<u32>)
    requires CanBuild(build)
    ensures |f| == |mem|
  {
    seq(|mem|, i requires 0 <= i < |mem| =>
      if i < Area(w, h) then PixelAt(i % w, i / w, xOffset, yOffset, build) else mem[i])
  }

  /**
   The fill never panics: every index is inside `mem` and fits in an i32,
   `x - x_offset` never overflows, and `y - y_offset` never overflows where it
   is evaluated (it is skipped when `x - x_offset` already hits a grid line,
   which for a one-pixel-wide image with `x_offset` a multiple of 100 is always).
   */
  predicate Renderable(len: nat, w: i32, h: i32, xOffset: i32, yOffset: i32) {
    w <= 0 || h <= 0 ||
    (&& w * h <= len
     && w * h <= 0x8000_0000
     && xOffset >= w - 0x8000_0000
     && (yOffset >= h - 0x8000_0000 || (w == 1 && xOffset % 100 == 0)))
  }

  /** Row-major indices decompose back into their column and row. */
  lemma IdxDecompose(w: int, x: int, y: int)
    requires 0 <= x < w
    ensures Idx(w, x, y) % w == x && Idx(w, x, y) / w == y
  {
    DivModUnique(Idx(w, x, y), w, y, x);
  }

  /** Distinct pixels have distinct indices, so each is written exactly once. */
  lemma IdxInjective(w: int, x1: int, y1: int, x2: int, y2: int)
    requires 0 <= x1 < w && 0 <= x2 < w
    requires Idx(w, x1, y1) == Idx(w, x2, y2)
    ensures x1 == x2 && y1 == y2
  {
    IdxDecompose(w, x1, y1);
    IdxDecompose(w, x2, y2);
  }

  /** The pixels of a `w` by `h` image cover exactly the indices below `w * h`. */
  lemma IdxCovers(w: i32, h: i32, i: int)
    requires w > 0 && h > 0 && 0 <= i < w * h
    ensures 0 <= i % w < w && 0 <= i / w < h
    ensures Idx(w, i % w, i / w) == i
  {
    DivFacts(i, w);
    if i / w >= h {
      MulBound(h, w, i / w, w);
    }
  }

  /** A pixel inside the image has an index inside the area. */
  lemma IdxInArea(w: i32, h: i32, x: int, y: int)
    requires 0 <= x < w && 0 <= y < h
    ensures 0 <= Idx(w, x, y) < Area(w, h)
  {
    MulBound(y, w, h - 1, w);
    MulSign(y, w);
  }

  /**
   `render_gfx`. Pixel `(x, y)` of the image gets its grid colour, every
   buffer entry past the image is left as it was, and the result is the
   reference frame.
   */
  method RenderGfx(mem: seq<u32>, w: i32, h: i32, xOffset: i32, yOffset: i32, build: PixelBuilder)
    returns (out: seq<u32>)
    requires CanBuild(build)
    requires Renderable(|mem|, w, h, xOffset, yOffset)
    ensures |out| == |mem|
    ensures forall x, y :: 0 <= x < w && 0 <= y < h ==>
              0 <= Idx(w, x, y) < |out| && out[Idx(w, x, y)] == PixelAt(x, y, xOffset, yOffset, build)
    ensures forall i :: Area(w, h) <= i < |out| ==> out[i] == mem[i]
    ensures out == Frame(mem, w, h, xOffset, yOffset, build)
  {
    ghost var f := Frame(mem, w, h, xOffset, yOffset, build);
    out := mem;
    var y: i32 := 0;
    while y < h
      invariant 0 <= y && (h > 0 ==> y <= h)
      invariant |out| == |mem|
      invariant forall i :: 0 <= i < |out| ==> out[i] == (if i < y * w then f[i] else mem[i])
    {
      var x: i32 := 0;
      while x < w
        invariant 0 <= x && (w > 0 ==> x <= w)
        invariant |out| == |mem|
        invariant forall i :: 0 <= i < |out| ==> out[i] == (if i < y * w + x then f[i] else mem[i])
      {
        IdxInArea(w, h, x, y);
        IdxDecompose(w, x, y);
        var idx: i32 := y * w + x;
        var dx: i32 := x - xOffset;
        var onGrid := RemT(dx, 100) == 0;
        if !onGrid {
          RemTZeroIffDivisible(dx);
          var dy: i32 := y - yOffset;
          onGrid := RemT(dy, 100) == 0;
        }
        var pixel := if onGrid then build(255, 0, 255, 0) else build(255, 0, 0, 0);
        assert pixel == f[idx];
        out := out[idx := pixel];
        x := x + 1;
      }
      if w > 0 {
        assert (y + 1) * w == y * w + w;
      } else {
        MulSign(y + 1, -(w as int));
      }
      y := y + 1;
    }
    if w > 0 && h > 0 {
      assert y * w == Area(w, h);
    } else if w <= 0 {
      MulSign(y, -(w as int));
    }
    assert forall i :: 0 <= i < |out| ==> out[i] == f[i];
    forall x, y | 0 <= x < w && 0 <= y < h
      ensures 0 <= Idx(w, x, y) < |out| && out[Idx(w, x, y)] == PixelAt(x, y, xOffset, yOffset, build)
    {
      IdxInArea(w, h, x, y);
      IdxDecompose(w, x, y);
    }
  }

  /** Moving the x offset by one grid spacing leaves the frame unchanged. */
  lemma FrameShiftX(mem: seq<u32>, w: i32, h: i32, xOffset: i32, yOffset: i32, build: PixelBuilder)
    requires CanBuild(build) && xOffset + 100 <= I32_MAX
    ensures Frame(mem, w, h, xOffset + 100, yOffset, build) == Frame(mem, w, h, xOffset, yOffset, build)
  {
    var f1 := Frame(mem, w, h, xOffset + 100, yOffset, build);
    var f0 := Frame(mem, w, h, xOffset, yOffset, build);
    forall i | 0 <= i < |mem| ensures f1[i] == f0[i] {
      if i < Area(w, h) {
        RemTShift(i % w - xOffset);
        assert i % w - (xOffset + 100) == (i % w - xOffset) - 100;
      }
    }
  }

  /** Moving the y offset by one grid spacing leaves the frame unchanged. */
  lemma FrameShiftY(mem: seq<u32>, w: i32, h: i32, xOffset: i32, yOffset: i32, build: PixelBuilder)
    requires CanBuild(build) && yOffset + 100 <= I32_MAX
    ensures Frame(mem, w, h, xOffset, yOffset + 100, build) == Frame(mem, w, h, xOffset, yOffset, build)
  {
    var f1 := Frame(mem, w, h, xOffset, yOffset + 100, build);
    var f0 := Frame(mem, w, h, xOffset, yOffset, build);
    forall i | 0 <= i < |mem| ensures f1[i] == f0[i] {
      if i < Area(w, h) {
        RemTShift(i / w - yOffset);
        assert i / w - (yOffset + 100) == (i / w - yOffset) - 100;
      }
    }
  }

  /**
   With the platform's `win32_u32_argb` as the builder, image pixels are opaque
   green (0xFF00FF00) exactly on grid lines and opaque black (0xFF000000)
   elsewhere.
   */
  lemma ArgbFrameColours(mem: seq<u32>, w: i32, h: i32, xOffset: i32, yOffset: i32)
    requires Area(w, h) <= |mem|
    ensures CanBuild(Argb)
    ensures forall x, y :: 0 <= x < w && 0 <= y < h ==>
              0 <= Idx(w, x, y) < |mem| &&
              Frame(mem, w, h, xOffset, yOffset, Argb)[Idx(w, x, y)] ==
                (if OnGrid(x, y, xOffset, yOffset) then 0xFF00FF00 else 0xFF000000)
  {
    GridColours();
    var f := Frame(mem, w, h, xOffset, yOffset, Argb);
    forall x, y | 0 <= x < w && 0 <= y < h
      ensures 0 <= Idx(w, x, y) < |mem| && f[Idx(w, x, y)] == (if OnGrid(x, y, xOffset, yOffset) then 0xFF00FF00 else 0xFF000000)
    {
      IdxInArea(w, h, x, y);
      IdxDecompose(w, x, y);
    }
  }
}

=== FILE: input.dfy ===
/**
 Per-frame input selection: the gamepad through XInput when its state has
 changed since the last poll, the W/S/A/D keys otherwise.

 The XInput call and `GetKeyState` are not part of the model; what they
 return this frame is passed in.
 */
module Input {
  import opened MachineInts

  /** The four directions the game reads (`rmh::Pad`). */
  datatype Pad = Pad(up: bool, down: bool, left: bool, right: bool)

  /** The part of XINPUT_STATE the program reads: the packet number and the button mask. */
  datatype GamepadState = GamepadState(packetNumber: u32, buttons: bv16)

  /** XInput as found at start-up: absent, or present and reporting this frame's state. */
  datatype XInput = Absent | Present(state: GamepadState)

  /** The D-pad bits of `wButtons` (XINPUT_GAMEPAD_DPAD_UP, _DOWN, _LEFT, _RIGHT). */
  const DPAD_UP: bv16 := 0x0001
  const DPAD_DOWN: bv16 := 0x0002
  const DPAD_LEFT: bv16 := 0x0004
  const DPAD_RIGHT: bv16 := 0x0008

  /** Virtual-key codes polled by the keyboard fallback: W, S, A, D. */
  const VK_W: i32 := 0x57
  const VK_S: i32 := 0x53
  const VK_A: i32 := 0x41
  const VK_D: i32 := 0x44

  /** Each direction is set iff its D-pad bit is set: the pad's mask is exactly the D-pad bits. */
  function DecodeDpad(buttons: bv16): (pad: Pad)
    ensures EncodeDpad(pad) == buttons & 0x000F
  {
    Pad((buttons & DPAD_UP) != 0,
        (buttons & DPAD_DOWN) != 0,
        (buttons & DPAD_LEFT) != 0,
        (buttons & DPAD_RIGHT) != 0)
  }

  /** The D-pad mask that presses exactly the given directions. */
  function EncodeDpad(pad: Pad): (buttons: bv16)
    ensures buttons & 0xFFF0 == 0
  {
    (if pad.up then DPAD_UP else 0)
    | (if pad.down then DPAD_DOWN else 0)
    | (if pad.left then DPAD_LEFT else 0)
    | (if pad.right then DPAD_RIGHT else 0)
  }

  /** Decoding a mask built from a pad gives the pad back. */
  lemma DpadRoundTrip(pad: Pad)
    ensures DecodeDpad(EncodeDpad(pad)) == pad
  {
  }

  /** Only the four D-pad bits matter: the other buttons never move the pad. */
  lemma DpadIgnoresOtherButtons(buttons: bv16)
    ensures DecodeDpad(buttons) == DecodeDpad(buttons & 0x000F)
    ensures EncodeDpad(DecodeDpad(buttons)) == buttons & 0x000F
  {
  }

  /** Result of a gamepad poll: whether it produced input, and the pad and packet it leaves. */
  datatype PadPoll = PadPoll(changed: bool, pad: Pad, packet: u32)

  /** `win32_get_pad_input`: take the gamepad's D-pad only when its packet number moved. */
  function GetPadInput(xinput: XInput, pad: Pad, packet: u32): (r: PadPoll)
    ensures r.changed <==> xinput.Present? && xinput.state.packetNumber != packet
    ensures !r.changed ==> r.pad == pad && r.packet == packet
    ensures r.changed ==> r.packet == xinput.state.packetNumber && r.packet != packet
    ensures r.changed ==> EncodeDpad(r.pad) == xinput.state.buttons & 0x000F
  {
    match xinput
    case Present(state) =>
      if state.packetNumber != packet then
        DpadIgnoresOtherButtons(state.buttons);
        PadPoll(true, DecodeDpad(state.buttons), state.packetNumber)
      else PadPoll(false, pad, packet)
    case Absent => PadPoll(false, pad, packet)
  }

  /** Polling again with an unchanged gamepad state produces nothing new. */
  lemma GetPadInputIdempotent(xinput: XInput, pad: Pad, packet: u32)
    ensures var r := GetPadInput(xinput, pad, packet);
      GetPadInput(xinput, r.pad, r.packet) == PadPoll(false, r.pad, r.packet)
  {
  }

  /** A key is down iff bit 15 of its `GetKeyState` value is set, that is iff the value is at least 0x8000. */
  predicate KeyDown(state: bv16): (down: bool)
    ensures down <==> state >= 0x8000
  {
    state & 0x8000 != 0
  }

  /** The signed SHORT that `GetKeyState` returns for the given bits. */
  function AsShort(state: bv16): i16 {
    var u := state as int;
    if u >= 0x8000 then u - 0x1_0000 else u
  }

  /** Bit 15 is the sign bit of the SHORT: a key is down iff its state is negative. */
  lemma KeyDownIffNegative(state: bv16)
    ensures KeyDown(state) <==> AsShort(state) < 0
  {
  }

  /** `win32_get_kbd_input`: every direction read from its key, W up, S down, A left, D right. */
  function GetKbdInput(keyState: i32 -> bv16): (pad: Pad)
    ensures pad.up <==> AsShort(keyState(VK_W)) < 0
    ensures pad.down <==> AsShort(keyState(VK_S)) < 0
    ensures pad.left <==> AsShort(keyState(VK_A)) < 0
    ensures pad.right <==> AsShort(keyState(VK_D)) < 0
  {
    KeyDownIffNegative(keyState(VK_W));
    KeyDownIffNegative(keyState(VK_S));
    KeyDownIffNegative(keyState(VK_A));
    KeyDownIffNegative(keyState(VK_D));
    Pad(KeyDown(keyState(VK_W)), KeyDown(keyState(VK_S)),
        KeyDown(keyState(VK_A)), KeyDown(keyState(VK_D)))
  }

  /** The pad state and packet number kept between frames. */
  datatype InputState = InputState(pad: Pad, packet: u32)

  /**
   The selection in the main loop: the gamepad's pad when its poll reports a
   change, otherwise the keyboard's, which replaces all four directions.
   The packet number only moves with the gamepad.
   */
  function SelectInput(xinput: XInput, st: InputState, keyState: i32 -> bv16): (r: InputState)
    ensures xinput.Present? && xinput.state.packetNumber != st.packet ==>
              r == InputState(DecodeDpad(xinput.state.buttons), xinput.state.packetNumber)
    ensures !(xinput.Present? && xinput.state.packetNumber != st.packet) ==>
              r == InputState(GetKbdInput(keyState), st.packet)
  {
    var poll := GetPadInput(xinput, st.pad, st.packet);
    if poll.changed then InputState(poll.pad, poll.packet)
    else InputState(GetKbdInput(keyState), poll.packet)
  }

  /** Without XInput the keyboard decides every frame and the packet number never moves. */
  lemma NoGamepadMeansKeyboard(st: InputState, keyState: i32 -> bv16)
    ensures SelectInput(Absent, st, keyState) == InputState(GetKbdInput(keyState), st.packet)
  {
  }
}

=== FILE: machine_ints.dfy ===
/**
 Fixed-width integers of the Rust source as subset types of `int`, and the
 two Rust operators whose meaning differs from Dafny's: the truncating
 remainder `%` on signed integers and the `as u32` truncation of a wider
 unsigned value.

 Arithmetic on these types is done on `int`; assigning a result back to one
 of them makes Dafny check that it is in range. That check is exactly the
 overflow panic of a Rust debug build, so every precondition that rules it
 out is one the source itself demands of its callers.
 */
module MachineInts {

  const U16_LIMIT: int := 0x1_0000
  const U32_LIMIT: int := 0x1_0000_0000
  const U32_MAX: int := 0xFFFF_FFFF
  const I32_MIN: int := -0x8000_0000
  const I32_MAX: int := 0x7FFF_FFFF

  type u16 = x: int | 0 <= x < 0x1_0000
  type u32 = x: int | 0 <= x < 0x1_0000_0000
  type i16 = x: int | -0x8000 <= x < 0x8000
  type i32 = x: int | -0x8000_0000 <= x < 0x8000_0000

  /** Rust's `%` on signed integers: the remainder takes the sign of the dividend. */
  function RemT(a: int, d: int): (r: int)
    requires d > 0
    ensures -d < r < d
    ensures a >= 0 ==> r >= 0
    ensures a <= 0 ==> r <= 0
    ensures (a - r) % d == 0
  {
    DivFacts(if a >= 0 then a else -a, d);
    if a >= 0 then
      DivModUnique(a - a % d, d, a / d, 0);
      a % d
    else
      DivModUnique(a + (-a) % d, d, -((-a) / d), 0);
      -((-a) % d)
  }

  /** Truncated and Euclidean remainders agree on divisibility by the grid spacing. */
  lemma RemTZeroIffDivisible(a: int)
    ensures RemT(a, 100) == 0 <==> a % 100 == 0
  {
  }

  /** Divisibility by 100 is unchanged by a shift of 100. */
  lemma RemTShift(a: int)
    ensures RemT(a - 100, 100) == 0 <==> RemT(a, 100) == 0
  {
    RemTZeroIffDivisible(a);
    RemTZeroIffDivisible(a - 100);
  }

  /** `x as u32` for an unsigned value wider than 32 bits keeps the low 32 bits. */
  function TruncateU32(x: nat): (r: u32)
    ensures x < U32_LIMIT ==> r == x
    ensures (x - r) % U32_LIMIT == 0
  {
    x % U32_LIMIT
  }

  /** ((x mod m) + y) mod m == (x + y) mod m, for the ring arithmetic of the sample index. */
  lemma ModAddLeft(x: nat, y: nat, m: nat)
    requires m > 0
    ensures (x % m + y) % m == (x + y) % m
  {
    var q := x / m;
    assert x == q * m + x % m;
    ModUnique(x + y, x % m + y, q, m);
  }

  /** Two numbers that differ by a multiple of m leave the same remainder. */
  lemma ModUnique(a: nat, b: nat, k: nat, m: nat)
    requires m > 0
    requires a == b + k * m
    ensures a % m == b % m
  {
    var qa, ra := a / m, a % m;
    var qb, rb := b / m, b % m;
    assert a == qa * m + ra;
    assert b == qb * m + rb;
    var c := qa - qb - k;
    assert c * m == rb - ra;
    if c >= 1 {
      assert false;
    } else if c <= -1 {
      assert false;
    }
  }

  /** A product of bounded naturals is bounded by the product of the bounds. */
  lemma MulBound(a: nat, b: nat, bigA: nat, bigB: nat)
    requires a <= bigA && b <= bigB
    ensures a * b <= bigA * bigB
  {
    assert a * b <= bigA * b;
  }

  lemma MulSign(x: int, y: int)
    ensures x >= 0 && y >= 0 ==> x * y >= 0
  {
  }

  /** Euclidean division of naturals: the quotient is a natural no larger than the dividend. */
  lemma DivFacts(a: nat, d: nat)
    requires d > 0
    ensures 0 <= a / d <= a
    ensures (a / d) * d <= a < (a / d) * d + d
    ensures 0 <= a % d < d && a % d <= a
  {
    var q := a / d;
    assert a == q * d + a % d;
    MulSign(-q - 1, d);
    MulSign(q, d - 1);
  }

  /** The quotient of naturals is a natural no larger than the dividend. */
  lemma DivBound(a: nat, d: nat)
    requires d > 0
    ensures 0 <= a / d <= a
  {
    DivFacts(a, d);
  }

  /** The remainder of a natural lies below the modulus. */
  lemma ModBound(a: nat, d: nat)
    requires d > 0
    ensures 0 <= a % d < d
  {
    DivFacts(a, d);
  }

  /** A natural below the modulus is its own remainder. */
  lemma ModSmall(a: nat, d: nat)
    requires a < d
    ensures a % d == a
  {
    DivFacts(a, d);
    MulSign(a / d - 1, d);
  }

  /** Quotient and remainder are determined by any decomposition with a remainder in range. */
  lemma DivModUnique(i: int, d: nat, q: int, r: int)
    requires d > 0 && 0 <= r < d && i == q * d + r
    ensures i / d == q && i % d == r
  {
    var q', r' := i / d, i % d;
    assert i == q' * d + r' && 0 <= r' < d;
    MulSign(q - q' - 1, d);
    MulSign(q' - q - 1, d);
  }
}

=== FILE: pixel.dfy ===
/**
 Packing of four 8-bit colour components into one 32-bit pixel
 (`win32_u32_argb`): alpha in bits 31-24, red in 23-16, green in 15-8 and
 blue in 7-0.
 */
module Pixel {
  import opened MachineInts

  /** Multiplying by `m` modulo `q * m` keeps the low part of `x` below `q`, shifted up. */
  lemma ShiftMod(x: nat, m: nat, q: nat)
    requires m > 0 && q > 0
    ensures (x * m) % (q * m) == (x % q) * m
  {
    DivFacts(x, q);
    MulBound(x % q + 1, m, q, m);
    assert x * m == (x / q) * (q * m) + (x % q) * m;
    MulSign(x % q, m);
    DivModUnique(x * m, q * m, x / q, (x % q) * m);
  }

  /**
   `x << k` on a u32: the low `k` bits of the result are zero and the bits
   above them are the low `32 - k` bits of `x`; bits shifted past bit 31 are
   dropped.
   */
  function Shl(x: u32, k: nat): (r: u32)
    requires k == 8 || k == 16 || k == 24
    ensures k == 8 ==> r % 0x100 == 0 && r / 0x100 == x % 0x100_0000
    ensures k == 16 ==> r % 0x1_0000 == 0 && r / 0x1_0000 == x % 0x1_0000
    ensures k == 24 ==> r % 0x100_0000 == 0 && r / 0x100_0000 == x % 0x100
  {
    var m := if k == 8 then 0x100 else if k == 16 then 0x1_0000 else 0x100_0000;
    var q := U32_LIMIT / m;
    assert q * m == U32_LIMIT;
    ShiftMod(x, m, q);
    ModBound(x, q);
    DivModUnique((x % q) * m, m, x % q, 0);
    (x * m) % U32_LIMIT
  }

  /** The three additions of `win32_u32_argb` do not overflow (the source would panic). */
  predicate ArgbFits(a: u32, r: u32, g: u32, b: u32) {
    Shl(a, 24) + Shl(r, 16) + Shl(g, 8) + b < U32_LIMIT
  }

  /** `win32_u32_argb`: on byte components, the pixel whose base-256 digits are alpha, red, green and blue. */
  function Argb(a: u32, r: u32, g: u32, b: u32): (px: u32)
    requires ArgbFits(a, r, g, b)
    ensures IsByte(a) && IsByte(r) && IsByte(g) ==>
              px == a * 0x100_0000 + r * 0x1_0000 + g * 0x100 + b
  {
    var px := Shl(a, 24) + Shl(r, 16) + Shl(g, 8) + b;
    if !(IsByte(a) && IsByte(r) && IsByte(g)) then px
    else
      ModSmall(a, 0x100);
      ModSmall(r, 0x1_0000);
      ModSmall(g, 0x100_0000);
      px
  }

  predicate IsByte(x: int) {
    0 <= x < 0x100
  }

  /** Components that are bytes always fit, and each can be read back from its own byte of the pixel. */
  lemma ArgbUnpacks(a: u32, r: u32, g: u32, b: u32)
    requires IsByte(a) && IsByte(r) && IsByte(g) && IsByte(b)
    ensures ArgbFits(a, r, g, b)
    ensures Argb(a, r, g, b) / 0x100_0000 == a
    ensures (Argb(a, r, g, b) / 0x1_0000) % 0x100 == r
    ensures (Argb(a, r, g, b) / 0x100) % 0x100 == g
    ensures Argb(a, r, g, b) % 0x100 == b
  {
    var px := a * 0x100_0000 + r * 0x1_0000 + g * 0x100 + b;
    assert Shl(a, 24) == a * 0x100_0000;
    assert Shl(r, 16) == r * 0x1_0000;
    assert Shl(g, 8) == g * 0x100;
    DivModUnique(px, 0x100_0000, a, r * 0x1_0000 + g * 0x100 + b);
    DivModUnique(px, 0x1_0000, a * 0x100 + r, g * 0x100 + b);
    DivModUnique(a * 0x100 + r, 0x100, a, r);
    DivModUnique(px, 0x100, a * 0x1_0000 + r * 0x100 + g, b);
    DivModUnique(a * 0x1_0000 + r * 0x100 + g, 0x100, a * 0x100 + r, g);
  }

  /** On byte components the packing is injective. */
  lemma ArgbInjective(a: u32, r: u32, g: u32, b: u32, a': u32, r': u32, g': u32, b': u32)
    requires IsByte(a) && IsByte(r) && IsByte(g) && IsByte(b)
    requires IsByte(a') && IsByte(r') && IsByte(g') && IsByte(b')
    requires ArgbFits(a, r, g, b) && ArgbFits(a', r', g', b')
    requires Argb(a, r, g, b) == Argb(a', r', g', b')
    ensures a == a' && r == r' && g == g' && b == b'
  {
    ArgbUnpacks(a, r, g, b);
    ArgbUnpacks(a', r', g', b');
  }

  /** A component wider than a byte spills into its neighbour. */
  lemma ArgbNotInjectiveBeyondBytes()
    ensures ArgbFits(0, 0, 1, 0) && ArgbFits(0, 0, 0, 0x100)
    ensures Argb(0, 0, 1, 0) == Argb(0, 0, 0, 0x100)
  {
    assert Shl(0, 24) == 0 && Shl(0, 16) == 0 && Shl(0, 8) == 0;
    assert Shl(1, 8) == 0x100;
  }

  /** The two colours of the grid: opaque green and opaque black. */
  lemma GridColours()
    ensures ArgbFits(255, 0, 255, 0) && Argb(255, 0, 255, 0) == 0xFF00FF00
    ensures ArgbFits(255, 0, 0, 0) && Argb(255, 0, 0, 0) == 0xFF000000
  {
    assert Shl(255, 24) == 0xFF00_0000 && Shl(255, 8) == 0xFF00;
    assert Shl(0, 16) == 0 && Shl(0, 8) == 0;
  }
}

=== FILE: ring.dfy ===
/**
 Signed distance between two byte positions on the circular sound buffer
 (`circular_distance`). A pair whose one end is in the last quarter of the
 ring and whose other end is in the first quarter is taken to straddle
 position zero, so the gap is measured through the wrap point.
 */
module Ring {
  import opened MachineInts

  /** Start of the last quarter: `circle_size / 100 * 75`. */
  function EndingBlock(n: u32): nat {
    n / 100 * 75
  }

  /** End of the first quarter: `circle_size / 100 * 25`. */
  function StartingBlock(n: u32): nat {
    n / 100 * 25
  }

  predicate InLastQuarter(x: u32, n: u32) {
    x >= EndingBlock(n)
  }

  predicate InFirstQuarter(x: u32, n: u32) {
    x <= StartingBlock(n)
  }

  /**
   The distance from `b` forward to `a`. The `as i32` casts of the source are
   value-preserving exactly when `a + n` and `b + n` fit in an i32, which the
   precondition demands; the result is then always the raw difference or the
   raw difference corrected by one turn of the ring.
   */
  function CircularDistance(a: u32, b: u32, n: u32): (d: i32)
    requires a + n <= I32_MAX && b + n <= I32_MAX
    ensures d == a - b || d == a - b - n || d == a - b + n
    ensures d < a - b ==> InLastQuarter(a, n) && InFirstQuarter(b, n)
    ensures d > a - b ==> InLastQuarter(b, n) && InFirstQuarter(a, n)
  {
    if InLastQuarter(a, n) && InFirstQuarter(b, n) then
      a - (b + n)
    else if InLastQuarter(b, n) && InFirstQuarter(a, n) then
      (a + n) - b
    else
      a - b
  }

  /** From 100 bytes on the last quarter starts strictly after the first quarter ends. */
  lemma QuartersDisjoint(n: u32)
    requires n >= 100
    ensures StartingBlock(n) < EndingBlock(n)
  {
  }

  /** A position is at distance zero from itself on any ring of at least 100 bytes. */
  lemma CircularDistanceSelf(a: u32, n: u32)
    requires n >= 100 && a + n <= I32_MAX
    ensures CircularDistance(a, a, n) == 0
  {
    QuartersDisjoint(n);
  }

  /** Below 100 bytes both quarter marks are 0 and the origin is a whole turn from itself. */
  lemma CircularDistanceSelfNeedsRing100(n: u32)
    requires 0 < n < 100
    ensures CircularDistance(0, 0, n) == -(n as int)
  {
  }

  /** Swapping the two ends negates the distance: the wrap branches mirror each other. */
  lemma CircularDistanceAntisymmetric(a: u32, b: u32, n: u32)
    requires n >= 100 && a + n <= I32_MAX && b + n <= I32_MAX
    ensures CircularDistance(a, b, n) == -CircularDistance(b, a, n)
  {
    QuartersDisjoint(n);
  }

  /**
   The wrap correction is applied exactly when the ends straddle zero: the
   distance passes back through the wrap point iff `a` is in the last quarter
   and `b` in the first, and forward through it iff the reverse holds.
   */
  lemma CircularDistanceWrapsIffStraddling(a: u32, b: u32, n: u32)
    requires n >= 100 && a + n <= I32_MAX && b + n <= I32_MAX
    ensures CircularDistance(a, b, n) == a - b - n <==> InLastQuarter(a, n) && InFirstQuarter(b, n)
    ensures CircularDistance(a, b, n) == a - b + n <==> InLastQuarter(b, n) && InFirstQuarter(a, n)
  {
    QuartersDisjoint(n);
  }

  /**
   For positions on the ring the distance is strictly shorter than one turn
   in either direction, and it is positive when `a` is just ahead of `b`
   without crossing the wrap point.
   */
  lemma CircularDistanceOnRing(a: u32, b: u32, n: u32)
    requires n >= 100 && a < n && b < n && a + n <= I32_MAX && b + n <= I32_MAX
    ensures -(n as int) < CircularDistance(a, b, n) < n
    ensures b <= a < EndingBlock(n) ==> CircularDistance(a, b, n) == a - b
  {
    QuartersDisjoint(n);
  }
}

=== FILE: scheduler.dfy ===
/**
 The per-frame audio step of the main loop, lifted out as pure functions:
 where to lock the DirectSound ring, how many bytes to write, how the running
 sample index advances, and when looped playback is started.

 Everything DirectSound does is a parameter: the write cursor comes from
 `GetCurrentPosition`, the span sizes from `Lock`, and the elapsed frame
 time from the frame timer. The samples come from the waveform renderer,
 whose body is not part of this model.
 */
module AudioScheduler {
  import opened MachineInts
  import opened SoundFormat
  import opened Ring

  /** Every division of the sizing has a non-zero divisor and no size overflows. */
  predicate ValidParams(p: SoundParams) {
    && FrameWidthFits(p)
    && BufferProductFits(p)
    && p.bufSizeSeconds > 0
    && BytesPerSample(p) > 0
    && BufSizeBytes(p) / BytesPerSample(p) > 0
  }

  /**
   The three numbers the step reads from the sound parameters: the ring size
   in bytes, the bytes of one sample frame, and the integer bytes-per-ms rate.
   The step depends on the parameters only through these.
   */
  datatype Layout = Layout(bufSize: u32, frameBytes: u32, bytesPerMs: u32)

  /** The ring holds at least one frame, and an offset plus one turn of it fits in an i32. */
  predicate LayoutOk(g: Layout) {
    0 < g.frameBytes <= g.bufSize < 0x2000_0000
  }

  /**
   The sizes as the source computes them from `SoundParams` on every frame;
   the rate is the ring's byte rate per millisecond rounded down.
   */
  function LayoutOf(p: SoundParams): (g: Layout)
    requires ValidParams(p)
    ensures LayoutOk(g)
    ensures g.bufSize == BufSizeBytes(p) && g.frameBytes == BytesPerSample(p)
    ensures g.bytesPerMs * (p.bufSizeSeconds * 1000) <= g.bufSize
    ensures g.bufSize < g.bytesPerMs * (p.bufSizeSeconds * 1000) + p.bufSizeSeconds * 1000
  {
    var buf := BufSizeBytes(p);
    var bps := BytesPerSample(p);
    var ms := p.bufSizeSeconds * 1000;
    DivFacts(buf, ms);
    DivFacts(buf, bps);
    MulBound(1, bps, buf / bps, bps);
    Layout(buf, bps, buf / ms)
  }

  /** Capacity of the ring in sample frames: the modulus of the running sample index. */
  function Capacity(g: Layout): (c: nat)
    requires LayoutOk(g)
    ensures 0 < c <= g.bufSize
  {
    DivFacts(g.bufSize, g.frameBytes);
    MulBound(1, g.frameBytes, g.bufSize / g.frameBytes, g.frameBytes);
    g.bufSize / g.frameBytes
  }

  /** The underflow margin: one percent of the ring, rounded down. */
  function Margin(g: Layout): (m: nat)
    ensures m * 100 <= g.bufSize < m * 100 + 100
  {
    g.bufSize / 100 * 1
  }

  function Min(a: int, b: int): int {
    if a <= b then a else b
  }

  /** The sample frame at index `idx` lies wholly inside the ring. */
  predicate InRing(g: Layout, idx: int) {
    LayoutOk(g) && 0 <= idx && (idx + 1) * g.frameBytes <= g.bufSize
  }

  /** A frame lies inside the ring iff its index is below the capacity. */
  lemma {:induction false} InRingIffBelowCapacity(g: Layout, idx: nat)
    requires LayoutOk(g)
    ensures InRing(g, idx) <==> idx < Capacity(g)
  {
    var c := Capacity(g);
    DivFacts(g.bufSize, g.frameBytes);
    if idx < c {
      MulBound(idx + 1, g.frameBytes, c, g.frameBytes);
    } else {
      MulBound(c + 1, g.frameBytes, idx + 1, g.frameBytes);
    }
  }

  /** The audio state carried from frame to frame (`sound_sample_idx`, `sound_playing`). */
  datatype AudioState = AudioState(sampleIdx: u32, playing: bool)

  /** The state the program starts in. */
  const Initial: AudioState := AudioState(0, false)

  /**
   The invariant every frame keeps: the running index is below the capacity,
   so it names a frame inside the ring (`InRingIffBelowCapacity`).
   */
  predicate Inv(g: Layout, s: AudioState) {
    LayoutOk(g) && s.sampleIdx < Capacity(g)
  }

  /** What the device and the clock report for one frame. */
  datatype FrameInput = FrameInput(writeCursor: u32, elapsedMs: nat)

  /**
   The byte offset passed to `Lock`: the start of frame `idx`, with a whole
   frame after it before the end of the ring.
   */
  function LockOffset(g: Layout, idx: u32): (off: u32)
    requires LayoutOk(g) && idx < Capacity(g)
    ensures off + g.frameBytes <= g.bufSize
    ensures off % g.frameBytes == 0 && off / g.frameBytes == idx
  {
    InRingIffBelowCapacity(g, idx);
    MulSign(idx, g.frameBytes);
    assert (idx + 1) * g.frameBytes == idx * g.frameBytes + g.frameBytes;
    DivModUnique(idx * g.frameBytes, g.frameBytes, idx, 0);
    idx * g.frameBytes
  }

  /**
   Distance from the hardware write cursor forward to our own lock offset.
   On a ring of at least 100 bytes it is less than one turn either way, and
   it is 0 when the lock offset sits on the cursor.
   */
  function TrackerDistance(g: Layout, idx: u32, writeCursor: u32): (d: i32)
    requires LayoutOk(g) && idx < Capacity(g) && writeCursor < g.bufSize
    ensures g.bufSize >= 100 ==> -(g.bufSize as int) < d < g.bufSize
    ensures g.bufSize >= 100 && writeCursor == LockOffset(g, idx) ==> d == 0
  {
    var off := LockOffset(g, idx);
    var d := CircularDistance(off, writeCursor, g.bufSize);
    if g.bufSize < 100 then d
    else
      CircularDistanceOnRing(off, writeCursor, g.bufSize);
      CircularDistanceSelf(off, g.bufSize);
      d
  }

  /** The lock offset is less than one margin ahead of the write cursor (or behind it). */
  predicate NearWriteCursor(g: Layout, idx: u32, writeCursor: u32)
    requires LayoutOk(g) && idx < Capacity(g) && writeCursor < g.bufSize
  {
    TrackerDistance(g, idx, writeCursor) < Margin(g)
  }

  /**
   Bytes for the elapsed time at the ring's byte rate, before margin and
   clamp: a whole number of milliseconds' worth.
   */
  function BaseBytes(g: Layout, ms: u32): (b: nat)
    ensures g.bytesPerMs > 0 ==> b % g.bytesPerMs == 0 && b / g.bytesPerMs == ms
    ensures g.bytesPerMs == 0 ==> b == 0
  {
    MulSign(g.bytesPerMs, ms);
    var b := g.bytesPerMs * ms;
    if g.bytesPerMs == 0 then b
    else
      DivModUnique(b, g.bytesPerMs, ms, 0);
      b
  }

  /**
   With the sizes of a parameter set, the base share of `ms` milliseconds is
   at most the ring's exact byte rate times `ms`, and short of it by less
   than one byte per millisecond.
   */
  lemma BaseBytesShare(p: SoundParams, ms: u32)
    requires ValidParams(p)
    ensures var g := LayoutOf(p); var perSec := p.bufSizeSeconds * 1000;
      && BaseBytes(g, ms) * perSec <= g.bufSize * ms
      && g.bufSize * ms <= BaseBytes(g, ms) * perSec + perSec * ms
      && (ms > 0 ==> g.bufSize * ms < BaseBytes(g, ms) * perSec + perSec * ms)
  {
    var g := LayoutOf(p);
    ScaleFloorBounds(g.bytesPerMs, p.bufSizeSeconds * 1000, g.bufSize, ms);
  }

  /** Scaling `r*d <= x < r*d + d` by `k` keeps both bounds. */
  lemma ScaleFloorBounds(r: nat, d: nat, x: nat, k: nat)
    requires r * d <= x < r * d + d
    ensures (r * k) * d <= x * k <= (r * k) * d + d * k
    ensures k > 0 ==> x * k < (r * k) * d + d * k
  {
    MulBound(r * d, k, x, k);
    MulBound(x, k, r * d + d, k);
    if k > 0 {
      MulBound(x + 1, k, r * d + d, k);
    }
    assert (r * d + d) * k == (r * k) * d + d * k;
    assert (r * d) * k == (r * k) * d;
  }

  /** The u32 byte count does not overflow on this frame (the source would panic). */
  predicate StepFits(g: Layout, s: AudioState, input: FrameInput) {
    && Inv(g, s)
    && input.writeCursor < g.bufSize
    && BaseBytes(g, TruncateU32(input.elapsedMs)) <= U32_MAX
    && (NearWriteCursor(g, s.sampleIdx, input.writeCursor) ==>
          BaseBytes(g, TruncateU32(input.elapsedMs)) + Margin(g) <= U32_MAX)
  }

  /**
   The byte count of one frame: the elapsed-time share, plus the margin when
   the lock offset is too close to the write cursor, clamped to the ring.
   */
  function BytesToWrite(g: Layout, s: AudioState, input: FrameInput): (n: u32)
    requires StepFits(g, s, input)
    ensures n <= g.bufSize
    ensures NearWriteCursor(g, s.sampleIdx, input.writeCursor) ==>
              n == Min(BaseBytes(g, TruncateU32(input.elapsedMs)) + Margin(g), g.bufSize)
    ensures !NearWriteCursor(g, s.sampleIdx, input.writeCursor) ==>
              n == Min(BaseBytes(g, TruncateU32(input.elapsedMs)), g.bufSize)
  {
    var base: u32 := BaseBytes(g, TruncateU32(input.elapsedMs));
    var withMargin: u32 :=
      if TrackerDistance(g, s.sampleIdx, input.writeCursor) < Margin(g) then base + Margin(g) else base;
    if withMargin > g.bufSize then g.bufSize else withMargin
  }

  /**
   `sound_sample_idx` after a frame of `n` bytes: advanced by the whole frames
   written and reduced modulo the capacity, which keeps it inside the ring.
   */
  function NextIndex(g: Layout, idx: u32, n: u32): (next: u32)
    requires LayoutOk(g) && idx < Capacity(g) && n <= g.bufSize
    ensures next < Capacity(g)
    ensures next == (idx + n / g.frameBytes) % Capacity(g)
  {
    DivBound(n, g.frameBytes);
    var advanced: u32 := idx + n / g.frameBytes;
    ModBound(advanced, Capacity(g));
    advanced % Capacity(g)
  }

  /** What one frame does and the state it leaves behind. */
  datatype Plan = Plan(
    lockOffset: u32,
    bytesToWrite: u32,
    sampleCount: nat,   // length of the i16 buffer handed to the waveform renderer
    play: bool,         // whether `Play` is issued on this frame
    next: AudioState)

  /**
   One iteration of the audio block of the main loop. The renderer's buffer
   covers every byte to write but an odd last one.
   */
  function Step(g: Layout, s: AudioState, input: FrameInput): (plan: Plan)
    requires StepFits(g, s, input)
    ensures Inv(g, plan.next)
    ensures plan.lockOffset == LockOffset(g, s.sampleIdx)
    ensures plan.bytesToWrite == BytesToWrite(g, s, input)
    ensures plan.lockOffset + g.frameBytes <= g.bufSize
    ensures plan.bytesToWrite <= g.bufSize
    ensures plan.sampleCount * 2 <= plan.bytesToWrite <= plan.sampleCount * 2 + 1
    ensures plan.next.sampleIdx ==
              (s.sampleIdx + plan.bytesToWrite / g.frameBytes) % Capacity(g)
    ensures plan.play <==> !s.playing
    ensures plan.next.playing
  {
    var off := LockOffset(g, s.sampleIdx);
    var n := BytesToWrite(g, s, input);
    Plan(off, n, n / 2, !s.playing, AudioState(NextIndex(g, s.sampleIdx, n), true))
  }

  /**
   Every frame of a run fits in u32 from the state the frames before it
   left behind: exactly the frames on which the source does not panic.
   */
  predicate RunFits(g: Layout, s: AudioState, inputs: seq<FrameInput>)
    decreases |inputs|
  {
    |inputs| == 0 ||
    (StepFits(g, s, inputs[0]) && RunFits(g, Step(g, s, inputs[0]).next, inputs[1..]))
  }

  /** Sufficient, state-independent condition for a frame input to fit in u32. */
  predicate InputFits(g: Layout, input: FrameInput) {
    && LayoutOk(g)
    && input.writeCursor < g.bufSize
    && BaseBytes(g, TruncateU32(input.elapsedMs)) + Margin(g) <= U32_MAX
  }

  /** Inputs that each fit whatever the state make a run that fits from any state in the ring. */
  lemma {:induction false} InputsFitRunFits(g: Layout, s: AudioState, inputs: seq<FrameInput>)
    requires Inv(g, s)
    requires forall i :: 0 <= i < |inputs| ==> InputFits(g, inputs[i])
    ensures RunFits(g, s, inputs)
    decreases |inputs|
  {
    if |inputs| > 0 {
      assert InputFits(g, inputs[0]);
      var next := Step(g, s, inputs[0]).next;
      assert forall i :: 0 <= i < |inputs[1..]| ==> InputFits(g, inputs[1..][i]) by {
        forall i | 0 <= i < |inputs[1..]| ensures InputFits(g, inputs[1..][i]) {
          assert inputs[1..][i] == inputs[i + 1];
        }
      }
      InputsFitRunFits(g, next, inputs[1..]);
    }
  }

  /** The plans of consecutive frames, each starting from the state the previous one left. */
  function Run(g: Layout, s: AudioState, inputs: seq<FrameInput>): (plans: seq<Plan>)
    requires Inv(g, s)
    requires RunFits(g, s, inputs)
    ensures |plans| == |inputs|
    ensures forall i :: 0 <= i < |plans| ==> Inv(g, plans[i].next)
    decreases |inputs|
  {
    if |inputs| == 0 then []
    else
      var plan := Step(g, s, inputs[0]);
      [plan] + Run(g, plan.next, inputs[1..])
  }

  /** The state after a sequence of frames. */
  function Final(s: AudioState, plans: seq<Plan>): AudioState {
    if |plans| == 0 then s else plans[|plans| - 1].next
  }

  /** Sample frames the running index advanced by over a sequence of frames. */
  function Advance(g: Layout, plans: seq<Plan>): nat
    requires LayoutOk(g)
  {
    if |plans| == 0 then 0
    else
      DivBound(plans[0].bytesToWrite, g.frameBytes);
      plans[0].bytesToWrite / g.frameBytes + Advance(g, plans[1..])
  }

  /** How many of the frames issued `Play`. */
  function PlayCount(plans: seq<Plan>): nat {
    if |plans| == 0 then 0 else (if plans[0].play then 1 else 0) + PlayCount(plans[1..])
  }

  /** Each plan's next index is its predecessor's advanced by the plan's whole frames, modulo capacity. */
  predicate Chained(g: Layout, s: AudioState, plans: seq<Plan>)
    requires LayoutOk(g)
    decreases |plans|
  {
    |plans| == 0 ||
    (&& plans[0].next.sampleIdx == (s.sampleIdx + plans[0].bytesToWrite / g.frameBytes) % Capacity(g)
     && Chained(g, plans[0].next, plans[1..]))
  }

  /** Consecutive frames chain their indices. */
  lemma {:induction false} RunChained(g: Layout, s: AudioState, inputs: seq<FrameInput>)
    requires Inv(g, s)
    requires RunFits(g, s, inputs)
    ensures Chained(g, s, Run(g, s, inputs))
    decreases |inputs|
  {
    if |inputs| > 0 {
      var first := Step(g, s, inputs[0]);
      var rest := Run(g, first.next, inputs[1..]);
      assert Run(g, s, inputs) == [first] + rest;
      assert ([first] + rest)[1..] == rest;
      RunChained(g, first.next, inputs[1..]);
    }
  }

  /**
   The index after `plans` is the starting index plus every whole frame the
   plans wrote, reduced modulo the capacity.
   */
  predicate IndexIsTotalModCapacity(g: Layout, s: AudioState, plans: seq<Plan>)
    requires LayoutOk(g)
  {
    Final(s, plans).sampleIdx == (s.sampleIdx + Advance(g, plans)) % Capacity(g)
  }

  /** Along a chain the final index is the starting one plus every frame written, modulo capacity. */
  lemma {:induction false} ChainedIndex(g: Layout, s: AudioState, plans: seq<Plan>)
    requires LayoutOk(g) && s.sampleIdx < Capacity(g)
    requires Chained(g, s, plans)
    ensures IndexIsTotalModCapacity(g, s, plans)
    ensures Final(s, plans).sampleIdx < Capacity(g)
    decreases |plans|
  {
    var c := Capacity(g);
    if |plans| == 0 {
      ModSmall(s.sampleIdx, c);
    } else {
      var first := plans[0];
      var rest := plans[1..];
      DivBound(first.bytesToWrite, g.frameBytes);
      var a0 := first.bytesToWrite / g.frameBytes;
      ModBound(s.sampleIdx + a0, c);
      ChainedIndex(g, first.next, rest);
      ModAddLeft(s.sampleIdx + a0, Advance(g, rest), c);
      assert Final(s, plans) == Final(first.next, rest);
    }
  }

  /**
   After any number of frames the running index is the total number of
   sample frames written, reduced modulo the ring's capacity, and it stays
   inside the ring.
   */
  lemma RunIndexIsTotalModCapacity(g: Layout, s: AudioState, inputs: seq<FrameInput>)
    requires Inv(g, s)
    requires RunFits(g, s, inputs)
    ensures IndexIsTotalModCapacity(g, s, Run(g, s, inputs))
    ensures Final(s, Run(g, s, inputs)).sampleIdx < Capacity(g)
  {
    RunChained(g, s, inputs);
    ChainedIndex(g, s, Run(g, s, inputs));
  }

  /**
   `Play` is issued on the first frame that finds playback stopped and never
   again: over any run it is issued once if playback was stopped and at least
   one frame ran, otherwise not at all, and once on it never turns off.
   */
  lemma {:induction false} RunPlaysAtMostOnce(g: Layout, s: AudioState, inputs: seq<FrameInput>)
    requires Inv(g, s)
    requires RunFits(g, s, inputs)
    ensures PlayCount(Run(g, s, inputs)) == (if !s.playing && |inputs| > 0 then 1 else 0)
    ensures Final(s, Run(g, s, inputs)).playing == (s.playing || |inputs| > 0)
    decreases |inputs|
  {
    if |inputs| > 0 {
      var plans := Run(g, s, inputs);
      var first := Step(g, s, inputs[0]);
      var rest := Run(g, first.next, inputs[1..]);
      assert plans == [first] + rest;
      assert plans[1..] == rest;
      RunPlaysAtMostOnce(g, first.next, inputs[1..]);
      if |rest| == 0 {
        assert Final(s, plans) == first.next;
      } else {
        assert Final(s, plans) == Final(first.next, rest);
      }
    }
  }

  /** A longer frame never writes fewer bytes, all else equal. */
  lemma BytesToWriteMonotone(g: Layout, s: AudioState, wc: u32, ms1: u32, ms2: u32)
    requires ms1 <= ms2
    requires StepFits(g, s, FrameInput(wc, ms1)) && StepFits(g, s, FrameInput(wc, ms2))
    ensures BytesToWrite(g, s, FrameInput(wc, ms1)) <= BytesToWrite(g, s, FrameInput(wc, ms2))
  {
    MulBound(g.bytesPerMs, ms1, g.bytesPerMs, ms2);
  }

  /**
   Monotonicity stops at the `as u32` truncation of the frame time: with the
   configured format a frame of 2^32 + 5 ms counts as 5 ms and writes fewer
   bytes than a 16 ms one, though neither overflows.
   */
  lemma BytesToWriteWrapsAtU32()
    ensures StepFits(ConfiguredLayout, Initial, FrameInput(0, 16))
    ensures StepFits(ConfiguredLayout, Initial, FrameInput(0, 0x1_0000_0005))
    ensures BytesToWrite(ConfiguredLayout, Initial, FrameInput(0, 0x1_0000_0005)) == 4800
    ensures BytesToWrite(ConfiguredLayout, Initial, FrameInput(0, 16)) == 6912
  {
    assert Margin(ConfiguredLayout) == 3840;
    assert LockOffset(ConfiguredLayout, 0) == 0;
    assert TruncateU32(0x1_0000_0005) == 5;
    CircularDistanceSelf(0, 384000);
  }

  /** The sizes of the configured format: a 384000-byte ring of 4-byte frames, 192 bytes per ms. */
  const ConfiguredLayout: Layout := Layout(384000, 4, 192)

  /** The configured parameters are valid and produce `ConfiguredLayout`. */
  lemma ConfiguredLayoutOf()
    ensures ValidParams(Configured) && LayoutOf(Configured) == ConfiguredLayout
  {
    ConfiguredSizes();
  }

  /**
   With the configured format every byte count is a whole number of 4-byte
   frames, so advancing the index by `bytes / 4` accounts for every byte.
   */
  lemma ConfiguredWritesWholeFrames(s: AudioState, input: FrameInput)
    requires StepFits(ConfiguredLayout, s, input)
    ensures Step(ConfiguredLayout, s, input).bytesToWrite % 4 == 0
  {
    assert Margin(ConfiguredLayout) == 3840;
    var ms := TruncateU32(input.elapsedMs);
    assert BaseBytes(ConfiguredLayout, ms) == 4 * (48 * ms);
  }

  /**
   The first frame with the configured format, the write cursor at 0 and a
   16 ms frame: 192 bytes per ms give 3072 bytes, the lock offset 0 sits on
   the cursor so the 3840-byte margin is added, and playback starts.
   */
  lemma ConfiguredFirstFrame()
    ensures StepFits(ConfiguredLayout, Initial, FrameInput(0, 16))
    ensures var plan := Step(ConfiguredLayout, Initial, FrameInput(0, 16));
      && plan.lockOffset == 0
      && BaseBytes(ConfiguredLayout, 16) == 3072
      && plan.bytesToWrite == 6912
      && plan.sampleCount == 3456
      && plan.next == AudioState(1728, true)
      && plan.play
  {
    assert Margin(ConfiguredLayout) == 3840;
    assert Capacity(ConfiguredLayout) == 96000;
    assert LockOffset(ConfiguredLayout, 0) == 0;
    CircularDistanceSelf(0, 384000);
  }
}

=== FILE: sound_format.dfy ===
/**
 The fixed PCM format of the sound buffer: the `SoundParams` record with its
 two derived sizes, and the `WAVEFORMATEX` descriptor built from the same
 numbers when the DirectSound buffer is created.
 */
module SoundFormat {
  import opened MachineInts

  /** WAVE_FORMAT_PCM, the format tag of uncompressed PCM in WAVEFORMATEX. */
  const WAVE_FORMAT_PCM: u16 := 1

  datatype SoundParams = SoundParams(
    bitsPerSample: u16,
    nChannels: u16,
    nSamplesPerSec: u16,
    bufSizeSeconds: u16)

  /** The parameters the program starts with: 16-bit stereo at 48000 Hz, a two-second ring. */
  const Configured: SoundParams := SoundParams(16, 2, 48000, 2)

  /** `bits_per_sample * n_channels` is a u16 product: it must not overflow. */
  predicate FrameWidthFits(p: SoundParams) {
    p.bitsPerSample * p.nChannels < U16_LIMIT
  }

  /**
   The u32 products inside `buf_size_bytes`, evaluated left to right, must
   not overflow: the three-way one and the four-way one (the two-way one
   is below 2^32 for any u16 factors).
   */
  predicate BufferProductFits(p: SoundParams) {
    && p.nChannels * p.bitsPerSample * p.nSamplesPerSec < U32_LIMIT
    && p.nChannels * p.bitsPerSample * p.nSamplesPerSec * p.bufSizeSeconds < U32_LIMIT
  }

  /**
   Size of the whole ring in bytes (`SoundParams::buf_size_bytes`): the bits
   of `bufSizeSeconds` seconds of audio, rounded down to whole bytes.
   */
  function BufSizeBytes(p: SoundParams): (n: u32)
    requires BufferProductFits(p)
    ensures n < 0x2000_0000
    ensures n * 8 <= p.nChannels * p.bitsPerSample * p.nSamplesPerSec * p.bufSizeSeconds < n * 8 + 8
  {
    var prod := p.nChannels * p.bitsPerSample * p.nSamplesPerSec * p.bufSizeSeconds;
    MulSign(p.nChannels, p.bitsPerSample);
    MulSign(p.nChannels * p.bitsPerSample, p.nSamplesPerSec);
    MulSign(p.nChannels * p.bitsPerSample * p.nSamplesPerSec, p.bufSizeSeconds);
    DivFacts(prod, 8);
    prod / 8
  }

  /** Bytes in one interleaved sample frame (`SoundParams::bytes_per_sample`): its bits rounded down to whole bytes. */
  function BytesPerSample(p: SoundParams): (r: u32)
    requires FrameWidthFits(p)
    ensures r * 8 <= p.bitsPerSample * p.nChannels < r * 8 + 8
  {
    DivFacts(p.bitsPerSample * p.nChannels, 8);
    (p.bitsPerSample * p.nChannels) / 8
  }

  /** The subset of WAVEFORMATEX that `new_pcm` fills in. */
  datatype WaveFormat = WaveFormat(
    formatTag: u16,
    nChannels: u16,
    nSamplesPerSec: u32,
    bitsPerSample: u16,
    nBlockAlign: u16,
    nAvgBytesPerSec: u32,
    cbSize: u16)

  /** `WAVEFORMATEX::new_pcm`: block alignment is whole bytes per frame, the byte rate is frames per second times that. */
  function NewPcm(nChannels: u16, bitsPerSample: u16, nSamplesPerSec: u16): (f: WaveFormat)
    requires nChannels * bitsPerSample < U16_LIMIT
    ensures f.formatTag == WAVE_FORMAT_PCM && f.cbSize == 0
    ensures f.nChannels == nChannels && f.bitsPerSample == bitsPerSample
    ensures f.nSamplesPerSec == nSamplesPerSec
    ensures f.nBlockAlign * 8 <= nChannels * bitsPerSample < f.nBlockAlign * 8 + 8
    ensures f.nAvgBytesPerSec == f.nSamplesPerSec * f.nBlockAlign
  {
    var blockAlign := (nChannels * bitsPerSample) / 8;
    MulBound(nSamplesPerSec, blockAlign, 0xFFFF, 0x1FFF);
    WaveFormat(WAVE_FORMAT_PCM, nChannels, nSamplesPerSec, bitsPerSample,
               blockAlign, nSamplesPerSec * blockAlign, 0)
  }

  /** The descriptor handed to DirectSound for a given parameter set. */
  function FormatOf(p: SoundParams): WaveFormat
    requires FrameWidthFits(p)
  {
    NewPcm(p.nChannels, p.bitsPerSample, p.nSamplesPerSec)
  }

  /**
   The descriptor agrees with the sizing functions: its block alignment is
   the bytes per sample, and when a frame is a whole number of bytes the
   ring holds exactly `bufSizeSeconds` seconds at the descriptor's byte rate.
   */
  lemma {:induction false} FormatAgreesWithSizing(p: SoundParams)
    requires FrameWidthFits(p) && BufferProductFits(p)
    ensures FormatOf(p).nBlockAlign == BytesPerSample(p)
    ensures (p.nChannels * p.bitsPerSample) % 8 == 0 ==>
              BufSizeBytes(p) == FormatOf(p).nAvgBytesPerSec * p.bufSizeSeconds
  {
    var w := p.nChannels * p.bitsPerSample;
    assert w == p.bitsPerSample * p.nChannels;
    if w % 8 == 0 {
      var k := w / 8;
      assert w == 8 * k;
      var rest := p.nSamplesPerSec * p.bufSizeSeconds;
      calc {
        p.nChannels * p.bitsPerSample * p.nSamplesPerSec * p.bufSizeSeconds;
        w * rest;
        8 * (k * rest);
      }
      assert BufSizeBytes(p) == k * rest;
      assert FormatOf(p).nAvgBytesPerSec == p.nSamplesPerSec * k;
    }
  }

  /** When a frame is not a whole number of bytes the two sizes can disagree. */
  lemma SubByteFrameDisagrees()
    ensures var p := SoundParams(4, 1, 8, 1);
      FrameWidthFits(p) && BufferProductFits(p) &&
      BufSizeBytes(p) == 4 && FormatOf(p).nAvgBytesPerSec * p.bufSizeSeconds == 0
  {
  }

  /** The configured format: 4 bytes per sample, 192000 bytes per second, a 384000-byte ring. */
  lemma ConfiguredSizes()
    ensures FrameWidthFits(Configured) && BufferProductFits(Configured)
    ensures BytesPerSample(Configured) == 4
    ensures BufSizeBytes(Configured) == 384000
    ensures FormatOf(Configured).nBlockAlign == 4
    ensures FormatOf(Configured).nAvgBytesPerSec == 192000
  {
  }
}

=== FILE: span_copy.dfy ===
/**
 Transfer of one frame's rendered samples into the ring. `Lock` hands back
 up to two writable spans (the second one exists when the locked range runs
 past the end of the ring and continues at offset 0); the samples are copied
 into the first span and then into the second, one source index running
 across both.

 The source sizes each span in i16 slots as `part_size / n_channels`. Slots of
 an i16 span are `part_size / 2`; the two agree for the configured stereo
 format only. The model copies `part_size / 2` slots; `AsWrittenMonoOverread`
 and `AsWrittenMonoOverrun` show what the source's count does with a mono
 format.
 */
module SpanCopy {
  import opened MachineInts
  import opened SoundFormat
  import opened AudioScheduler
  import Ring

  /** i16 slots in a locked span of `partSize` bytes: the whole 2-byte slots that fit. */
  function SpanSlots(partSize: u32): (slots: nat)
    ensures slots * 2 <= partSize < slots * 2 + 2
  {
    partSize / 2
  }

  /** The source's slot count for a span: bytes divided by the channel count, rounded down. */
  function SpanSlotsAsWritten(partSize: u32, nChannels: u16): (slots: nat)
    requires nChannels > 0
    ensures slots * nChannels <= partSize < slots * nChannels + nChannels
  {
    DivFacts(partSize, nChannels);
    partSize / nChannels
  }

  /**
   Copies `count1` samples into the first span and the next `count2` into the
   second. Each span's written prefix holds the samples in order, the rest
   of each span is untouched, and together the spans received exactly the
   first `count1 + count2` samples, none skipped or repeated.
   */
  method CopySpans(samples: seq<i16>, span1: seq<i16>, span2: seq<i16>, count1: nat, count2: nat)
    returns (out1: seq<i16>, out2: seq<i16>, transferred: nat)
    requires count1 <= |span1| && count2 <= |span2|
    requires count1 + count2 <= |samples|
    ensures |out1| == |span1| && |out2| == |span2|
    ensures transferred == count1 + count2
    ensures out1[..count1] + out2[..count2] == samples[..transferred]
    ensures out1[count1..] == span1[count1..] && out2[count2..] == span2[count2..]
  {
    transferred := 0;
    out1 := span1;
    var i := 0;
    while i < count1
      invariant 0 <= i <= count1
      invariant transferred == i
      invariant |out1| == |span1|
      invariant forall j :: 0 <= j < i ==> out1[j] == samples[j]
      invariant forall j :: i <= j < |out1| ==> out1[j] == span1[j]
    {
      out1 := out1[i := samples[transferred]];
      transferred := transferred + 1;
      i := i + 1;
    }
    out2 := span2;
    i := 0;
    while i < count2
      invariant 0 <= i <= count2
      invariant transferred == count1 + i
      invariant |out2| == |span2|
      invariant forall j :: 0 <= j < i ==> out2[j] == samples[count1 + j]
      invariant forall j :: i <= j < |out2| ==> out2[j] == span2[j]
    {
      out2 := out2[i := samples[transferred]];
      transferred := transferred + 1;
      i := i + 1;
    }
    assert out1[..count1] == samples[..count1];
    assert out2[..count2] == samples[count1..count1 + count2];
    assert samples[..count1 + count2] == samples[..count1] + samples[count1..count1 + count2];
  }

  /** Spans that together hold no more bytes than were requested fit in the rendered samples. */
  lemma SpanSlotsWithinSamples(part1size: u32, part2size: u32, bytesToWrite: u32)
    requires part1size + part2size <= bytesToWrite
    ensures SpanSlots(part1size) + SpanSlots(part2size) <= bytesToWrite / 2
  {
  }

  /** For a stereo format the source's slot count is the i16 slot count. */
  lemma AsWrittenAgreesForStereo(partSize: u32)
    ensures SpanSlotsAsWritten(partSize, 2) == SpanSlots(partSize)
  {
  }

  /** Mono 16-bit at 48000 Hz with a two-second ring. */
  const Mono: SoundParams := SoundParams(16, 1, 48000, 2)

  /** The mono format's sizes: a 192000-byte ring of 2-byte frames, 96 bytes per ms. */
  lemma MonoLayoutOf()
    ensures ValidParams(Mono) && LayoutOf(Mono) == Layout(192000, 2, 96)
  {
    assert BytesPerSample(Mono) == 2;
    assert BufSizeBytes(Mono) == 192000;
  }

  /**
   With a mono format the source's count over-reads: on the first 16 ms frame
   with the write cursor at 0 the plan asks for 3456 bytes, 1728 samples are
   rendered, and `Lock` returns the range as one span of 1728 i16 slots. The
   source's loop runs 3456 times, so its read of sample 1728 is out of range
   (an index panic) right after the span has been filled.
   */
  lemma AsWrittenMonoOverread()
    ensures ValidParams(Mono) && StepFits(LayoutOf(Mono), Initial, FrameInput(0, 16))
    ensures var plan := Step(LayoutOf(Mono), Initial, FrameInput(0, 16));
      && plan.lockOffset + plan.bytesToWrite <= LayoutOf(Mono).bufSize
      && plan.bytesToWrite == 3456
      && plan.sampleCount == 1728
      && SpanSlots(3456) == plan.sampleCount
      && SpanSlotsAsWritten(3456, Mono.nChannels) == 3456
      && SpanSlotsAsWritten(3456, Mono.nChannels) > plan.sampleCount
  {
    MonoLayoutOf();
    var g := LayoutOf(Mono);
    assert Margin(g) == 1920;
    assert LockOffset(g, 0) == 0;
    Ring.CircularDistanceSelf(0, 192000);
  }

  /**
   With a mono format the source's count over-runs a span when `Lock` splits
   the range: at index 95950 (offset 191900, 100 bytes before the end of the
   ring) with the write cursor on it, a 16 ms frame asks for 3456 bytes, so
   the first span is 100 bytes (50 i16 slots) and the second 3356. The
   source's first loop runs 100 times, reading only rendered samples, and
   so writes 50 i16 values past the end of the first span before anything
   panics.
   */
  lemma AsWrittenMonoOverrun()
    ensures ValidParams(Mono) && StepFits(LayoutOf(Mono), AudioState(95950, true), FrameInput(191900, 16))
    ensures var g := LayoutOf(Mono);
      var plan := Step(g, AudioState(95950, true), FrameInput(191900, 16));
      && plan.lockOffset == 191900
      && plan.bytesToWrite == 3456
      && plan.sampleCount == 1728
      && g.bufSize - plan.lockOffset == 100
      && plan.bytesToWrite - (g.bufSize - plan.lockOffset) == 3356
      && SpanSlots(100) == 50
      && SpanSlotsAsWritten(100, Mono.nChannels) == 100
      && SpanSlotsAsWritten(100, Mono.nChannels) <= plan.sampleCount
  {
    MonoLayoutOf();
    var g := LayoutOf(Mono);
    assert Margin(g) == 1920;
    assert Capacity(g) == 96000;
    assert LockOffset(g, 95950) == 191900;
    Ring.CircularDistanceSelf(191900, 192000);
  }

  /**
   The whole audio block of one frame: plan it, render `bytesToWrite / 2`
   samples (sample `i` is `wave(i)`; the renderer's body is not part of this
   model), fill both locked spans completely in order, and hand back the next
   state. Every read of the samples and every write into a span is in bounds
   whenever `Lock` returns no more bytes than asked.
   */
  method AudioFrame(g: Layout, s: AudioState, input: FrameInput, wave: nat -> i16,
                    part1size: u32, part2size: u32, span1: seq<i16>, span2: seq<i16>)
    returns (plan: Plan, samples: seq<i16>, out1: seq<i16>, out2: seq<i16>)
    requires StepFits(g, s, input)
    requires part1size + part2size <= BytesToWrite(g, s, input)
    requires |span1| == SpanSlots(part1size) && |span2| == SpanSlots(part2size)
    ensures plan == Step(g, s, input)
    ensures Inv(g, plan.next)
    ensures plan.play <==> !s.playing
    ensures |samples| == plan.sampleCount
    ensures forall i :: 0 <= i < |samples| ==> samples[i] == wave(i)
    ensures |out1| == |span1| && |out2| == |span2|
    ensures out1 + out2 == samples[..|span1| + |span2|]
  {
    plan := Step(g, s, input);
    samples := seq(plan.sampleCount, i requires 0 <= i => wave(i));
    SpanSlotsWithinSamples(part1size, part2size, plan.bytesToWrite);
    var transferred;
    out1, out2, transferred := CopySpans(samples, span1, span2, |span1|, |span2|);
    assert out1[..|span1|] == out1 && out2[..|span2|] == out2;
  }
}
